=== FILE: README.md ===
# Decision spinner, modelled in Dafny

The decision spinner is a single React component. A user keeps an ordered list of
text options and presses Spin. Adding through the form never creates a duplicate; a
list restored from storage is taken as it is. On Spin the wheel turns forward by
several turns and comes to rest with the drawn option under the pointer, as the wheel
was laid out when Spin was pressed. After the animation a dialog names that option.
The wheel is redrawn from the live list, so an add or remove during the spin can leave
a different option under the pointer from the one the dialog names. This project lifts the component's state out of React into one immutable record
and models each event handler as a pure transition on it:

- `wrappers.dfy` (`Wrappers`): the `Option` type that stands for the source's `null`.
- `js.dfy` (`Js`): the part of JavaScript the handlers rely on. Strings are sequences of
  UTF-16 code units, `String.prototype.trim` removes ECMAScript whitespace and line
  terminators, and the `%` operator truncates toward zero.
- `wheel.dfy` (`Wheel`): how the wheel is laid out. It covers the ten-colour palette,
  equal segment bounds, each label's angle and text, and which segment lies under the
  pointer at the top for a given rotation.
- `spinner.dfy` (`Spinner`): the state record and the transitions Edit, Add, Remove,
  Clear, Dismiss, SpinStart and SpinComplete, plus the random draw and the
  target-rotation arithmetic.
- `session.dfy` (`Session`): the component as an event machine. The spin timeout
  that may be pending is part of the machine's state, together with the option list
  and index its callback captured. There are lemmas about arbitrary sequences of
  events.
- `scenarios.dfy` (`Scenarios`): concrete runs. They show the Pizza/Tacos rotation of
  2970 degrees, trimming on add, case-sensitive duplicate detection, a winner revealed
  after its list was cleared, a wheel that stops on a different option from the one
  revealed, and two long options sharing a label.

The random number `Math.random()` becomes a parameter in [0, 1). `SpinStart` takes the
drawn index directly. Angles are exact `real`s.

Two points about what the code does:

- The reveal does not capture the winning option by value. The timeout callback closes
  over the `options` array of the render in which Spin was pressed, and over the drawn
  index, and it reads `options[index]` when it fires. Arrays are replaced and never
  mutated, so this is the option drawn at spin start. `Pending(snapshot, index)` holds
  both.
- Only options added through the form are guaranteed non-empty, trimmed and unique. A
  list restored from storage is used as it is. So `AllOptions` and `NoDuplicates` are
  stated as preserved by Add and Remove, not as always true.

The event machine in `Session` accepts more events than the page can produce. It allows
Clear All on an empty list, although the button is only rendered when there are options
(src/App.tsx:121). It allows Close with no result showing, although the dialog only
exists while there is a result (src/App.tsx:217). It allows a remove at any integer
index, although only the rows' own indices are offered (src/App.tsx:145-148). The
invariants hold over this larger set, so they also hold over the page's events. Some
runs of the model have no counterpart on the page. For example, a `ClearAll` can
dismiss a winner shown over an empty list.

## Model

| member | source | states |
|---|---|---|
| Js.IsWhitespace | src/App.tsx:60 | the code units `trim()` removes are ECMAScript WhiteSpace and LineTerminator: within ASCII exactly tab through carriage return and space; next line, the Mongolian vowel separator and zero-width space are kept |
| Js.Trim | src/App.tsx:60 | `newOption.trim()` has no whitespace at either end, is no longer than the input, and is empty exactly when the input is all whitespace |
| Js.TrimIsTheCut | src/App.tsx:60 | trimming equals an independent description: the unique cut of whitespace-only runs at both ends that leaves a string tight at both ends (both directions) |
| Js.TrimIdempotent | src/App.tsx:60-61 | re-trimming a stored (trimmed) option changes nothing |
| Js.TrimOfTight | src/App.tsx:60 | a string without whitespace at its ends is its own trim |
| Js.Truncate | src/App.tsx:92 | the quotient JavaScript's `%` uses is truncated toward zero: at most the value for non-negative input, at least it for non-positive input, and within one of it |
| Wheel.PaletteDistinct | src/App.tsx:5-8 | the ten palette colours are pairwise different |
| Wheel.GetColor | src/App.tsx:11 | `getColor(i)` always yields a palette colour, never the grey of the empty wheel |
| Wheel.SameColorIff | src/App.tsx:11 | two positions get the same colour exactly when they agree modulo 10 |
| Wheel.NeighbourColors | src/App.tsx:104-105 | adjacent segments always differ in colour; the last and first segment, which touch at the top, share a colour exactly when the count is 1 modulo 10 |
| Wheel.SegmentAngle | src/App.tsx:55 | the segment width is positive; `count` segments make exactly 360 degrees; an empty list counts as one segment |
| Wheel.BandStart | src/App.tsx:105 | segment `i` starts at `i * segmentAngle`, the fraction `i / count` of a turn: between 0 and 360 for `i <= count`, and 360 exactly at `i == count` |
| Wheel.SegmentBand | src/App.tsx:105 | segment `i`'s gradient stop is exactly one segment width wide |
| Wheel.Bands | src/App.tsx:104-106 | with at least two options there is one band per option in palette order, starting at 0, abutting, each 360/n wide, with the last ending at exactly 360; otherwise there is one grey band from 0 to 360 |
| Wheel.LabelAngle | src/App.tsx:185 | label `i` sits strictly inside segment `i`, at its midpoint, strictly between 0 and 360 |
| Wheel.SegmentAt | src/App.tsx:104-105 | every angle in [0, 360) falls in some segment `i < count` whose bounds contain it |
| Wheel.SegmentAtUnique | src/App.tsx:104-105 | the segments partition the circle: an angle inside segment `i` belongs to no other segment |
| Wheel.LabelInItsSegment | src/App.tsx:185 | the segment containing label `i`'s angle is segment `i` |
| Wheel.TurnRemainder | src/App.tsx:92 | `rotation % 360` keeps the sign of `rotation`, is less than a turn in size, and leaves a whole number of turns |
| Wheel.AngleUnderPointer | src/App.tsx:160-173 | for a wheel turned clockwise by `rotation`, the wheel angle under the top pointer lies in [0, 360) and completes the rotation to whole turns |
| Wheel.AngleUnderPointerUnique | src/App.tsx:160-173 | that angle is unique |
| Wheel.Label | src/App.tsx:198 | a label is at most 15 code units: the option itself when it has at most 12, otherwise its first 12 followed by "..." |
| Wheel.LabelShowsOptionIff | src/App.tsx:198 | a label equals its option exactly when the option has at most 12 units, or has 15 units and already ends in "..." |
| Spinner.Initial | src/App.tsx:39-47 | the first render holds the restored list, an empty input, a wheel at rest at 0 that is not spinning and no result; Spin is enabled exactly when at least two options were restored |
| Spinner.Edit | src/App.tsx:136 | typing replaces the input text and changes nothing else |
| Spinner.Add | src/App.tsx:58-64 | the list grows exactly when the trimmed input is non-empty and not already listed (case-sensitive), and then by appending that trimmed text; the input clears only on success; duplicate-freedom and "all options trimmed and non-empty" are preserved; spin state and result are untouched |
| Spinner.AddTwiceAddsOnce | src/App.tsx:58-64 | submitting the same text twice appends it once; the second submission leaves the text in the input |
| Spinner.Without | src/App.tsx:68 | filtering out index `k` deletes exactly position `k` when it is in range, keeping the others in order, and is the identity otherwise |
| Spinner.Remove | src/App.tsx:67-69 | a valid index deletes exactly that position, keeping the rest in order, so the list shrinks by one and loses one copy of that entry; in a duplicate-free list that option is gone; an invalid index changes nothing; only the list changes |
| Spinner.Clear | src/App.tsx:72-75 | the list becomes empty and the result is cleared; the input, spinning flag and rotation are untouched |
| Spinner.Dismiss | src/App.tsx:222 | only the result is cleared |
| Spinner.CanSpin | src/App.tsx:78 | the guard of `handleSpin` lets a spin through exactly when the Spin button is enabled, that is, when the button's `disabled` expression (src/App.tsx:208), true while spinning or with fewer than two options, is false |
| Spinner.Draw | src/App.tsx:83 | the drawn index is always within the list |
| Spinner.DrawIff | src/App.tsx:83 | index `i` is drawn exactly when the random number lies in [i/n, (i+1)/n), an interval of width 1/n for each index |
| Spinner.NextRotation | src/App.tsx:85-92 | the new rotation is strictly larger than the old; from a non-negative rotation it is more by between 2520 and 3240 degrees; its whole turns are those of the old rotation (counted toward zero, as `%` does) plus eight; plus the winner's middle angle it is a whole number of turns |
| Spinner.RotationDetermined | src/App.tsx:92 | the contract of `NextRotation` fixes its value: any angle with eight more whole turns than the rotation had, completed to a whole turn by the winner's middle, is the target |
| Spinner.SpinLandsOnWinner | src/App.tsx:86-92 | after the turn, on the wheel as laid out for the list at spin start, the wheel angle under the pointer is the winner's label angle, so the winner's segment is under the pointer; `rotation % 360` equals 360 minus that angle |
| Spinner.SpinStart | src/App.tsx:77-94 | the state is unchanged and nothing is scheduled exactly when there are fewer than two options or a spin is running; otherwise the wheel is marked spinning, the result is cleared, the rotation becomes the target of the drawn index (so it moves forward and lands the drawn segment, for the list as it was at spin start, under the pointer), and a reveal of `options[idx]` over the current list is scheduled; nothing else changes |
| Spinner.SpinComplete | src/App.tsx:97-100 | the timeout stops the spin and shows the captured list's entry at the drawn index; nothing else changes |
| Session.Start | src/App.tsx:39-47 | the first render holds the restored list, no result, no pending timeout, and satisfies the machine invariant |
| Session.Step | src/App.tsx:58-101 | every event preserves the invariant: spinning exactly while one timeout is pending, the captured index valid, no result shown mid-spin, rotation non-negative; rotation never decreases; a Spin press is a no-op exactly when the button is disabled (src/App.tsx:208); only the timeout removes a pending reveal; a result only ever appears or changes through the timeout, and then it is the captured list's entry at the drawn index (Add, Clear, Spin and Close can only leave it or clear it, src/App.tsx:74, 81, 222) |
| Session.Run | src/App.tsx:58-101 | any sequence of events preserves the invariant and never turns the wheel back |
| Session.PendingSurvives | src/App.tsx:97-100 | while a spin is in flight, any events other than the timeout leave the pending reveal and the spinning flag as they are |
| Session.TimeoutReportsDrawnOption | src/App.tsx:83-99 | after an accepted spin and any adds, removals, clears, edits or closes, the timeout reveals the option drawn from the list as it was at spin start |
| Session.RotationMonotone | src/App.tsx:92-94 | over any run containing an accepted spin, the final rotation is strictly larger than the initial one |
| Scenarios.PizzaTacosRotation | src/App.tsx:86-92 | with two options, drawing index 1 from rest at 0 turns the wheel to 2970 |
| Scenarios.AddTrims | src/App.tsx:60-61 | adding "  Tacos  " stores "Tacos" |
| Scenarios.AddIsCaseSensitive | src/App.tsx:60 | adding "Pizza" then "pizza" keeps both |
| Scenarios.WinnerMayBeGone | src/App.tsx:97-100 | spinning ["Pizza", "Tacos"] onto "Tacos", then clearing, still reveals "Tacos" over an empty list |
| Scenarios.WheelStopsOnAnotherOption | src/App.tsx:92-105 | with ["Pizza", "Tacos", "Sushi"], a spin that draws "Pizza" followed by removing "Pizza" ends with "Tacos"'s segment of the redrawn two-option wheel under the pointer, while the dialog reveals "Pizza" |
| Scenarios.LongOptionsShareLabel | src/App.tsx:198 | two different options that agree in their first 12 units get the same label |

## Left out

- Persistence (`loadOptionsFromStorage`, `saveOptionsToStorage` and the effect that calls it, src/App.tsx:13-35, 49-52) goes through browser storage and JSON. The restored list is a parameter of `Session.Start`. A stored array holding non-string values has no counterpart, because options are typed as strings.
- The theme toggle (src/components/ThemeToggle.tsx) is presentation over a context that is not part of this model.
- `Math.random()` itself is left out. Its value is an event parameter assumed to be in [0, 1).
- The 5000 ms delay and the scheduling of `setTimeout` are left out. The pending timeout is state, and it fires when the `TimerFires` event says so.
- IEEE-754 rounding in `360 / n` and the angle sums is left out. Angles are exact reals.
- React's rendering, batching and the `key` props are left out. Each event is applied to the state of the previous one, which matches one re-render between discrete user events.
- The JSX markup, CSS classes, keyframes and the conic-gradient string format (src/App.tsx:109-239) are left out. Only the numeric band bounds, colours, label angles and label texts are modelled.
- The Add button's `disabled={!newOption.trim()}` (src/App.tsx:140) is not modelled separately. `Spinner.Add` performs the same check, so a disabled submit and a rejected add have the same effect.

=== FILE: js.dfy ===
/** The part of JavaScript's string and number semantics that the spinner relies on:
    strings as UTF-16 code units, `String.prototype.trim`, and the truncation `%` uses. */
module Js {

  /** One UTF-16 code unit. A JavaScript string is a sequence of these, and
      `length`, `substring`, `trim` and `===` all work unit by unit. */
  newtype CodeUnit = x: int | 0 <= x < 0x1_0000

  type JsString = seq<CodeUnit>

  /** The code units `trim` removes: WhiteSpace (section 12.2 of ECMA-262: tab,
      vertical tab, form feed, the byte-order mark and every Space_Separator)
      and LineTerminator (section 12.3: LF, CR, LS, PS). Within ASCII these are exactly tab
      through carriage return and space; next line (U+0085), the Mongolian vowel separator
      (U+180E) and the zero-width space (U+200B) are not among them, so `trim` keeps them. */
  predicate IsWhitespace(c: CodeUnit): (ws: bool)
    ensures c < 0x80 ==> (ws <==> 0x09 <= c <= 0x0D || c == 0x20)
    ensures c == 0x85 || c == 0x180E || c == 0x200B ==> !ws
  {
    || c == 0x09 || c == 0x0A || c == 0x0B || c == 0x0C || c == 0x0D
    || c == 0x20 || c == 0xA0 || c == 0x1680 || (0x2000 <= c <= 0x200A)
    || c == 0x2028 || c == 0x2029 || c == 0x202F || c == 0x205F
    || c == 0x3000 || c == 0xFEFF
  }

  /** Every code unit of `s` is whitespace (true of the empty string). */
  predicate AllWhitespace(s: JsString) {
    forall i :: 0 <= i < |s| ==> IsWhitespace(s[i])
  }

  /** True when `s` is empty or neither starts nor ends with whitespace. */
  predicate Tight(s: JsString) {
    s == [] || (!IsWhitespace(s[0]) && !IsWhitespace(s[|s| - 1]))
  }

  /** Length of the run of whitespace that opens `s`. */
  function LeadingWhitespace(s: JsString): (k: nat)
    ensures k <= |s|
    ensures AllWhitespace(s[..k])
    ensures k < |s| ==> !IsWhitespace(s[k])
    ensures k == |s| <==> AllWhitespace(s)
  {
    if |s| > 0 && IsWhitespace(s[0]) then
      var k := 1 + LeadingWhitespace(s[1..]);
      assert forall i :: 1 <= i < k ==> s[..k][i] == s[1..][..k - 1][i - 1];
      k
    else
      0
  }

  /** Length of the run of whitespace that closes `s`. */
  function TrailingWhitespace(s: JsString): (k: nat)
    ensures k <= |s|
    ensures AllWhitespace(s[|s| - k..])
    ensures k < |s| ==> !IsWhitespace(s[|s| - k - 1])
  {
    if |s| > 0 && IsWhitespace(s[|s| - 1]) then
      var p := s[..|s| - 1];
      var k := 1 + TrailingWhitespace(p);
      assert forall m :: |s| - k <= m < |s| - 1 ==>
        s[m] == p[m] && p[|p| - (k - 1)..][m - (|p| - (k - 1))] == p[m];
      k
    else
      0
  }

  /** `s.trim()`: `s` with its leading and trailing whitespace removed. */
  function Trim(s: JsString): (r: JsString)
    ensures |r| <= |s|
    ensures Tight(r)
    ensures r == [] <==> AllWhitespace(s)
  {
    var i := LeadingWhitespace(s);
    var t := s[i..];
    var j := TrailingWhitespace(t);
    var r := t[..|t| - j];
    assert t == r + t[|t| - j..];
    assert i < |s| ==> t[0] == s[i];
    assert r != [] ==> r[0] == t[0];
    r
  }

  /** `r` is what is left of `s` once whitespace-only runs `s[..i]` and `s[j..]`
      are cut away, and `r` itself has no whitespace at either end. */
  predicate IsCut(s: JsString, r: JsString, i: int, j: int) {
    && 0 <= i <= j <= |s|
    && r == s[i..j]
    && AllWhitespace(s[..i])
    && AllWhitespace(s[j..])
    && Tight(r)
  }

  /** An independent description of trimming: some cut of whitespace at both ends leaves `r`. */
  ghost predicate IsTrimOf(s: JsString, r: JsString) {
    exists i, j :: IsCut(s, r, i, j)
  }

  /** A whitespace prefix followed by a non-whitespace unit fixes the leading run. */
  lemma {:induction false} LeadingWhitespaceExact(s: JsString, i: nat)
    requires i < |s| && AllWhitespace(s[..i]) && !IsWhitespace(s[i])
    ensures LeadingWhitespace(s) == i
    decreases i
  {
    if i > 0 {
      assert s[1..][..i - 1] == s[..i][1..];
      assert s[1..][i - 1] == s[i];
      LeadingWhitespaceExact(s[1..], i - 1);
    }
  }

  /** A whitespace suffix preceded by a non-whitespace unit fixes the trailing run. */
  lemma {:induction false} TrailingWhitespaceExact(s: JsString, j: nat)
    requires j < |s| && AllWhitespace(s[j + 1..]) && !IsWhitespace(s[j])
    ensures TrailingWhitespace(s) == |s| - 1 - j
    decreases |s| - j
  {
    if j < |s| - 1 {
      var p := s[..|s| - 1];
      assert p[j + 1..] == s[j + 1..|s| - 1];
      assert p[j] == s[j];
      assert IsWhitespace(s[|s| - 1]) by { assert s[|s| - 1] == s[j + 1..][|s| - 2 - j]; }
      TrailingWhitespaceExact(p, j);
    }
  }

  /** `Trim` cuts whitespace-only runs from both ends. */
  lemma TrimIsCut(s: JsString) returns (i: nat, j: nat)
    ensures IsCut(s, Trim(s), i, j)
  {
    i := LeadingWhitespace(s);
    var t := s[i..];
    var k := TrailingWhitespace(t);
    j := |s| - k;
    assert Trim(s) == t[..|t| - k];
    assert t[..|t| - k] == s[i..j];
    assert s[j..] == t[|t| - k..];
  }

  /** Any cut of whitespace at both ends that leaves a tight string is `Trim`'s cut. */
  lemma CutIsTrim(s: JsString, r: JsString, a: int, b: int)
    requires IsCut(s, r, a, b)
    ensures r == Trim(s)
  {
    if r == [] {
      assert s == s[..a] + s[b..];
      assert AllWhitespace(s) by {
        forall k | 0 <= k < |s| ensures IsWhitespace(s[k]) {
          if k < a { assert s[k] == s[..a][k]; } else { assert s[k] == s[b..][k - b]; }
        }
      }
    } else {
      var i := LeadingWhitespace(s);
      assert s[a] == r[0];
      LeadingWhitespaceExact(s, a);
      var t := s[i..];
      assert t[b - 1 - i] == r[|r| - 1];
      assert t[b - i..] == s[b..];
      TrailingWhitespaceExact(t, b - 1 - i);
    }
  }

  /** `Trim` is exactly the cut of whitespace at both ends: it is one, and it is the only one. */
  lemma TrimIsTheCut(s: JsString, r: JsString)
    ensures IsTrimOf(s, r) <==> r == Trim(s)
  {
    var i, j := TrimIsCut(s);
    if IsTrimOf(s, r) {
      var a, b :| IsCut(s, r, a, b);
      CutIsTrim(s, r, a, b);
    }
  }

  /** Trimming a trimmed string changes nothing. */
  lemma TrimIdempotent(s: JsString)
    ensures Trim(Trim(s)) == Trim(s)
  {
    var r := Trim(s);
    assert IsCut(r, r, 0, |r|);
    TrimIsTheCut(r, r);
  }

  /** A string with no whitespace at its ends is its own trim. */
  lemma TrimOfTight(s: JsString)
    requires Tight(s)
    ensures Trim(s) == s
  {
    assert s[..0] == [] && s[|s|..] == [];
    assert IsCut(s, s, 0, |s|);
    TrimIsTheCut(s, s);
  }

  /** Truncation toward zero, as JavaScript's `%` uses for its quotient. */
  function Truncate(x: real): (q: int)
    ensures 0.0 <= x ==> 0.0 <= q as real <= x < q as real + 1.0
    ensures x <= 0.0 ==> q as real - 1.0 < x <= q as real <= 0.0
  {
    if x >= 0.0 then x.Floor else -((-x).Floor)
  }
}

=== FILE: scenarios.dfy ===
/** Concrete runs of the spinner: a spin from rest, trimming and case-sensitive duplicate
    detection on add, long labels, and a spin whose winner is no longer in the list when it
    is revealed. */
module Scenarios {
  import opened Js
  import opened Wrappers
  import opened Spinner
  import Session
  import Wheel

  /** "Pizza" */
  const Pizza: JsString := [0x50, 0x69, 0x7A, 0x7A, 0x61]
  /** "pizza" */
  const LowerPizza: JsString := [0x70, 0x69, 0x7A, 0x7A, 0x61]
  /** "Tacos" */
  const Tacos: JsString := [0x54, 0x61, 0x63, 0x6F, 0x73]
  /** "Sushi" */
  const Sushi: JsString := [0x53, 0x75, 0x73, 0x68, 0x69]
  /** "  Tacos  " */
  const PaddedTacos: JsString := [0x20, 0x20, 0x54, 0x61, 0x63, 0x6F, 0x73, 0x20, 0x20]
  /** "Burrito bowl, beef" */
  const BowlBeef: JsString :=
    [0x42, 0x75, 0x72, 0x72, 0x69, 0x74, 0x6F, 0x20, 0x62, 0x6F, 0x77, 0x6C, 0x2C, 0x20, 0x62, 0x65, 0x65, 0x66]
  /** "Burrito bowl, veggie" */
  const BowlVeggie: JsString :=
    [0x42, 0x75, 0x72, 0x72, 0x69, 0x74, 0x6F, 0x20, 0x62, 0x6F, 0x77, 0x6C, 0x2C, 0x20, 0x76, 0x65, 0x67, 0x67, 0x69, 0x65]

  /** With options ["Pizza", "Tacos"] at rest at 0, drawing index 1 turns the wheel to 2970:
      eight full turns plus 90 degrees, which puts the middle of segment 1 (270) under the pointer. */
  lemma PizzaTacosRotation()
    ensures NextRotation(0.0, 1, 2) == 2970.0
  {
    assert Wheel.LabelAngle(1, 2) == 270.0;
    assert (2970.0 / 360.0).Floor == 8;
    assert ((2970.0 + 270.0) / 360.0).Floor == 9;
    RotationDetermined(0.0, 1, 2, 2970.0);
  }

  /** Adding "  Tacos  " stores "Tacos". */
  lemma AddTrims()
    ensures Add(Edit(Initial([]), PaddedTacos)).options == [Tacos]
  {
    assert IsCut(PaddedTacos, Tacos, 2, 7) by {
      assert PaddedTacos[2..7] == Tacos;
      assert PaddedTacos[..2] == [0x20, 0x20];
      assert PaddedTacos[7..] == [0x20, 0x20];
    }
    TrimIsTheCut(PaddedTacos, Tacos);
  }

  /** "Pizza" and "pizza" are different options: duplicates are detected case-sensitively. */
  lemma AddIsCaseSensitive()
    ensures Add(Edit(Add(Edit(Initial([]), Pizza)), LowerPizza)).options == [Pizza, LowerPizza]
  {
    TrimOfTight(Pizza);
    TrimOfTight(LowerPizza);
    var first := Add(Edit(Initial([]), Pizza));
    assert first.options == [Pizza];
    assert Pizza[0] != LowerPizza[0];
  }

  /** The accepted quirk: with ["Pizza", "Tacos"], a spin that draws "Tacos" followed by
      Clear All still reveals "Tacos" although the list is now empty. */
  lemma WinnerMayBeGone()
    ensures var m := Session.Start([Pizza, Tacos]);
      var done := Session.Run(m, [Session.Spin(0.75), Session.ClearAll, Session.TimerFires]);
      done.app.options == [] && done.app.result == Some(Tacos)
  {
    var m := Session.Start([Pizza, Tacos]);
    assert Draw(0.75, 2) == 1;
    var events := [Session.Spin(0.75), Session.ClearAll, Session.TimerFires];
    Session.TimeoutReportsDrawnOption(m, 0.75, [Session.ClearAll]);
    Session.RunCons(m, events);
    Session.RunCons(Session.Step(m, events[0]), events[1..]);
    Session.RunCons(Session.Step(Session.Step(m, events[0]), events[1]), events[2..]);
  }

  /** The wheel is redrawn from the live list while the rotation and the reveal keep the
      spin-start draw. With ["Pizza", "Tacos", "Sushi"], a spin that draws "Pizza" followed by
      removing "Pizza" stops with "Tacos"'s segment under the pointer, while the dialog says
      "Pizza". */
  lemma WheelStopsOnAnotherOption()
    ensures var m := Session.Start([Pizza, Tacos, Sushi]);
      var done := Session.Run(m, [Session.Spin(0.0), Session.RemoveAt(0), Session.TimerFires]);
      && done.app.options == [Tacos, Sushi]
      && done.app.result == Some(Pizza)
      && Wheel.SegmentAt(Wheel.AngleUnderPointer(done.app.rotation), |done.app.options|) == 0
  {
    var m := Session.Start([Pizza, Tacos, Sushi]);
    SpinDrawsPizza();
    var m1 := Session.Step(m, Session.Spin(0.0));
    Session.RunThree(m, Session.Spin(0.0), Session.RemoveAt(0), Session.TimerFires);
    RemoveThenReveal(m1);
    FirstOfThreeUnderTwo();
  }

  /** Spinning ["Pizza", "Tacos", "Sushi"] from rest with random 0 draws "Pizza". */
  lemma SpinDrawsPizza()
    ensures var m1 := Session.Step(Session.Start([Pizza, Tacos, Sushi]), Session.Spin(0.0));
      && m1.app.options == [Pizza, Tacos, Sushi]
      && m1.timer == Some(Pending([Pizza, Tacos, Sushi], 0))
      && m1.app.rotation == NextRotation(0.0, 0, 3)
  {
    assert Draw(0.0, 3) == 0;
  }

  /** Removing the first option mid-spin and letting the timeout fire reveals the captured
      "Pizza" over the two options left, with the rotation unchanged. */
  lemma RemoveThenReveal(m1: Session.Machine)
    requires Session.Invariant(m1)
    requires m1.app.options == [Pizza, Tacos, Sushi] && m1.timer == Some(Pending([Pizza, Tacos, Sushi], 0))
    ensures var done := Session.Step(Session.Step(m1, Session.RemoveAt(0)), Session.TimerFires);
      && done.app.options == [Tacos, Sushi]
      && done.app.result == Some(Pizza)
      && done.app.rotation == m1.app.rotation
  {
    assert [Pizza, Tacos, Sushi][1..] == [Tacos, Sushi];
  }

  /** A wheel turned to land the first of three segments has the first of two segments under
      the pointer. */
  lemma FirstOfThreeUnderTwo()
    ensures Wheel.SegmentAt(Wheel.AngleUnderPointer(NextRotation(0.0, 0, 3)), 2) == 0
  {
    SpinLandsOnWinner(0.0, 0, 3);
    assert Wheel.LabelAngle(0, 3) == 60.0;
    assert Wheel.BandStart(1, 2) == 180.0;
    Wheel.SegmentAtUnique(60.0, 2, 0);
  }

  /** "Burrito bowl, beef" and "Burrito bowl, veggie" agree in their first twelve code units,
      so the wheel labels them both "Burrito bowl...". */
  lemma LongOptionsShareLabel()
    ensures BowlBeef != BowlVeggie && Wheel.Label(BowlBeef) == Wheel.Label(BowlVeggie)
  {
    assert BowlBeef[14] != BowlVeggie[14];
    assert BowlBeef[..12] == BowlVeggie[..12];
  }
}

=== FILE: session.dfy ===
/** The spinner as an event machine: user events and the firing of the one pending timeout,
    applied in any order. The pending timeout is part of the machine's state, holding what
    its callback captured when the spin started (src/App.tsx:77-101). */
module Session {
  import opened Js
  import opened Wrappers
  import opened Spinner

  /** One thing that can happen to the component. */
  datatype Event =
    | Type(text: JsString)   // the input changes
    | Submit                 // the add form is submitted
    | RemoveAt(index: int)   // a row's remove button
    | ClearAll               // the Clear All button
    | Spin(random: real)     // the Spin button, with the value `Math.random()` returns
    | TimerFires             // the pending spin timeout runs
    | Close                  // the result dialog's Close button

  /** The component's state together with the timeout a spin left pending, if any. */
  datatype Machine = Machine(app: State, timer: Option<Pending>)

  /** `Math.random()` returns a number in [0, 1). */
  predicate Possible(e: Event) {
    e.Spin? ==> 0.0 <= e.random < 1.0
  }

  /** Every event in the sequence is one that can happen. */
  predicate AllPossible(events: seq<Event>) {
    forall i :: 0 <= i < |events| ==> Possible(events[i])
  }

  /** At most one spin is in flight, and exactly while the wheel is marked spinning; its
      captured index is valid for its captured list; no result is shown during a spin; and
      the rotation never went below its initial 0. */
  predicate Invariant(m: Machine) {
    && (m.app.isSpinning <==> m.timer.Some?)
    && (m.timer.Some? ==> m.timer.value.index < |m.timer.value.snapshot|)
    && (m.app.isSpinning ==> m.app.result == None)
    && m.app.rotation >= 0.0
  }

  /** The machine on first render, with the list restored from storage. */
  function Start(saved: seq<JsString>): (m: Machine)
    ensures Invariant(m)
    ensures m.app.options == saved && m.app.result == None && m.timer == None
  {
    Machine(Initial(saved), None)
  }

  /** The effect of one event. */
  function Step(m: Machine, e: Event): (m': Machine)
    requires Invariant(m) && Possible(e)
    ensures Invariant(m')
    ensures m.app.rotation <= m'.app.rotation
    ensures e.Spin? ==> (m' == m <==> !CanSpin(m.app))
    ensures !e.TimerFires? && m.timer.Some? ==> m'.timer == m.timer
    ensures m'.app.result.Some? && m'.app.result != m.app.result ==>
      e.TimerFires? && m.timer.Some? && m'.app.result == Some(m.timer.value.snapshot[m.timer.value.index])
    ensures e.TimerFires? && m.timer.Some? ==>
      m'.app.result == Some(m.timer.value.snapshot[m.timer.value.index])
  {
    match e
    case Type(text) => m.(app := Edit(m.app, text))
    case Submit => m.(app := Add(m.app))
    case RemoveAt(index) => m.(app := Remove(m.app, index))
    case ClearAll => m.(app := Clear(m.app))
    case Close => m.(app := Dismiss(m.app))
    case Spin(random) =>
      if CanSpin(m.app) then
        var started := SpinStart(m.app, Draw(random, |m.app.options|));
        Machine(started.state, started.scheduled)
      else
        m
    case TimerFires =>
      match m.timer
      case None => m
      case Some(pending) => Machine(SpinComplete(m.app, pending), None)
  }

  /** The effect of a sequence of events, in order. */
  function Run(m: Machine, events: seq<Event>): (m': Machine)
    requires Invariant(m) && AllPossible(events)
    ensures Invariant(m')
    ensures m.app.rotation <= m'.app.rotation
    decreases |events|
  {
    if events == [] then m else Run(Step(m, events[0]), events[1..])
  }

  /** While a spin is in flight, nothing but its timeout touches it: further Spin presses
      are ignored and list edits leave the captured list and index alone. */
  lemma {:induction false} PendingSurvives(m: Machine, events: seq<Event>)
    requires Invariant(m) && AllPossible(events) && m.timer.Some?
    requires forall i :: 0 <= i < |events| ==> !events[i].TimerFires?
    ensures Run(m, events).timer == m.timer
    ensures Run(m, events).app.isSpinning
    decreases |events|
  {
    if events != [] {
      RunCons(m, events);
      assert forall i :: 0 <= i < |events[1..]| ==> events[1..][i] == events[i + 1];
      PendingSurvives(Step(m, events[0]), events[1..]);
    }
  }

  /** The deferred reveal reports the option drawn at spin start from the list as it was
      then, whatever adds, removals, clears or closes happen before the timeout fires. */
  lemma {:induction false} TimeoutReportsDrawnOption(m: Machine, random: real, events: seq<Event>)
    requires Invariant(m) && CanSpin(m.app) && 0.0 <= random < 1.0
    requires AllPossible(events)
    requires forall i :: 0 <= i < |events| ==> !events[i].TimerFires?
    ensures var done := Step(Run(Step(m, Spin(random)), events), TimerFires);
      && done.app.result == Some(m.app.options[Draw(random, |m.app.options|)])
      && !done.app.isSpinning
      && done.timer == None
  {
    var spun := Step(m, Spin(random));
    var idx := Draw(random, |m.app.options|);
    assert spun.timer == Some(Pending(m.app.options, idx));
    PendingSurvives(spun, events);
  }

  /** Over any run, the wheel never turns back, and every accepted spin turns it strictly forward. */
  lemma {:induction false} RotationMonotone(m: Machine, events: seq<Event>, k: nat)
    requires Invariant(m) && AllPossible(events)
    requires k < |events| && events[k].Spin?
    requires CanSpin(Run(m, events[..k]).app)
    ensures m.app.rotation < Run(m, events).app.rotation
    decreases |events|
  {
    RunCons(m, events);
    if k == 0 {
      assert events[..0] == [];
    } else {
      assert events[..k] == [events[0]] + events[1..][..k - 1];
      RunCons(m, events[..k]);
      assert events[..k][1..] == events[1..][..k - 1];
      RotationMonotone(Step(m, events[0]), events[1..], k - 1);
    }
  }

  /** Running three events is stepping through them one after another. */
  lemma RunThree(m: Machine, a: Event, b: Event, c: Event)
    requires Invariant(m) && Possible(a) && Possible(b) && Possible(c)
    ensures AllPossible([a, b, c])
    ensures Run(m, [a, b, c]) == Step(Step(Step(m, a), b), c)
  {
    var m1 := Step(m, a);
    var m2 := Step(m1, b);
    assert [a, b, c][1..] == [b, c];
    assert [b, c][1..] == [c];
    assert Run(m2, [c]) == Run(Step(m2, c), []);
  }

  /** Running a non-empty sequence is one step followed by the rest. */
  lemma RunCons(m: Machine, events: seq<Event>)
    requires Invariant(m) && AllPossible(events) && events != []
    ensures Possible(events[0])
    ensures AllPossible(events[1..])
    ensures Run(m, events) == Run(Step(m, events[0]), events[1..])
  {
    assert forall i :: 0 <= i < |events[1..]| ==> events[1..][i] == events[i + 1];
  }
}

=== FILE: spinner.dfy ===
/** The decision spinner's component state, lifted out of React into one record, and the
    pure transitions its event handlers perform on it (src/App.tsx:37-101, 222). */
module Spinner {
  import opened Js
  import opened Wrappers
  import Wheel

  /** The component's state hooks (src/App.tsx:39-47). */
  datatype State = State(
    options: seq<JsString>,
    newOption: JsString,
    isSpinning: bool,
    rotation: real,
    result: Option<JsString>)

  /** What the timeout callback scheduled by a spin closes over: the option list as it
      was rendered when the spin started, and the drawn index. */
  datatype Pending = Pending(snapshot: seq<JsString>, index: nat)

  /** The outcome of pressing Spin: the new state and the timeout it scheduled, if any. */
  datatype Started = Started(state: State, scheduled: Option<Pending>)

  /** An option as the add form produces it: non-empty and trimmed. */
  predicate IsOption(x: JsString) {
    x != [] && Tight(x)
  }

  /** Every entry of the list is a non-empty, trimmed option. */
  predicate AllOptions(xs: seq<JsString>) {
    forall i :: 0 <= i < |xs| ==> IsOption(xs[i])
  }

  /** No option appears twice in the list. */
  predicate NoDuplicates(xs: seq<JsString>) {
    forall i, j :: 0 <= i < j < |xs| ==> xs[i] != xs[j]
  }

  /** The first render: the list restored from storage, an empty input, a wheel at rest. */
  function Initial(saved: seq<JsString>): (st: State)
    ensures st.options == saved && st.newOption == []
    ensures !st.isSpinning && st.rotation == 0.0 && st.result == None
    ensures CanSpin(st) <==> |saved| >= 2
  {
    State(saved, [], false, 0.0, None)
  }

  /** The input's change handler (src/App.tsx:136): only the input text changes. */
  function Edit(st: State, text: JsString): (st': State)
    ensures st'.newOption == text
    ensures st'.(newOption := st.newOption) == st
  {
    st.(newOption := text)
  }

  /** `handleAddOption`: append the trimmed input unless it is empty or already listed
      (exact, case-sensitive comparison); the input is cleared only when something was added. */
  function Add(st: State): (st': State)
    ensures st'.options != st.options <==> Trim(st.newOption) != [] && Trim(st.newOption) !in st.options
    ensures st'.options == st.options || st'.options == st.options + [Trim(st.newOption)]
    ensures st'.newOption == if st'.options == st.options then st.newOption else []
    ensures NoDuplicates(st.options) ==> NoDuplicates(st'.options)
    ensures AllOptions(st.options) ==> AllOptions(st'.options)
    ensures st'.isSpinning == st.isSpinning && st'.rotation == st.rotation && st'.result == st.result
  {
    var trimmed := Trim(st.newOption);
    if trimmed != [] && trimmed !in st.options then
      var options := st.options + [trimmed];
      assert options[|st.options|] == trimmed;
      assert |options| != |st.options|;
      st.(options := options, newOption := [])
    else
      st
  }

  /** Submitting the same text a second time adds nothing and leaves it in the input field. */
  lemma AddTwiceAddsOnce(st: State, text: JsString)
    requires Trim(text) != [] && Trim(text) !in st.options
    ensures var once := Add(Edit(st, text));
      var twice := Add(Edit(once, text));
      twice.options == once.options == st.options + [Trim(text)] && twice.newOption == text
  {
    var once := Add(Edit(st, text));
    assert Trim(text) in once.options by { assert once.options[|st.options|] == Trim(text); }
  }

  /** `options.filter((_, index) => index !== k)`, accumulated left to right. */
  function Without<T>(xs: seq<T>, k: int): (ys: seq<T>)
    ensures 0 <= k < |xs| ==> ys == xs[..k] + xs[k + 1..]
    ensures !(0 <= k < |xs|) ==> ys == xs
    decreases |xs|
  {
    if xs == [] then
      []
    else
      var init := xs[..|xs| - 1];
      var rest := Without(init, k);
      if |xs| - 1 == k then
        assert xs[..k] == init;
        rest
      else
        assert xs == init + [xs[|xs| - 1]];
        assert 0 <= k < |xs| ==> xs[k + 1..] == init[k + 1..] + [xs[|xs| - 1]];
        rest + [xs[|xs| - 1]]
  }

  /** `handleRemoveOption`: drop exactly position `index`; any other index changes nothing.
      The result is left alone, even if it names the removed option. */
  function Remove(st: State, index: int): (st': State)
    ensures 0 <= index < |st.options| ==>
      st'.options == st.options[..index] + st.options[index + 1..] &&
      |st'.options| == |st.options| - 1 &&
      multiset(st'.options) + multiset{st.options[index]} == multiset(st.options)
    ensures !(0 <= index < |st.options|) ==> st' == st
    ensures NoDuplicates(st.options) ==> NoDuplicates(st'.options)
    ensures NoDuplicates(st.options) && 0 <= index < |st.options| ==> st.options[index] !in st'.options
    ensures AllOptions(st.options) ==> AllOptions(st'.options)
    ensures st'.(options := st.options) == st
  {
    WithoutShifts(st.options, index);
    st.(options := Without(st.options, index))
  }

  /** Deleting position `k` shifts every later element down by one and leaves one copy of
      `xs[k]` fewer. */
  lemma WithoutShifts<T>(xs: seq<T>, k: int)
    ensures 0 <= k < |xs| ==> |Without(xs, k)| == |xs| - 1
    ensures 0 <= k < |xs| ==>
      forall i :: 0 <= i < |xs| - 1 ==> Without(xs, k)[i] == xs[if i < k then i else i + 1]
    ensures 0 <= k < |xs| ==> multiset(Without(xs, k)) + multiset{xs[k]} == multiset(xs)
  {
    if 0 <= k < |xs| {
      assert xs == xs[..k] + [xs[k]] + xs[k + 1..];
    }
  }

  /** `handleClearAll`: empty the list and drop the result; a running spin keeps running. */
  function Clear(st: State): (st': State)
    ensures st'.options == [] && st'.result == None
    ensures st'.(options := st.options, result := st.result) == st
  {
    st.(options := [], result := None)
  }

  /** The result dialog's Close button (src/App.tsx:222): only the result goes. */
  function Dismiss(st: State): (st': State)
    ensures st'.result == None
    ensures st'.(result := st.result) == st
  {
    st.(result := None)
  }

  /** The Spin button's `disabled` expression (src/App.tsx:208). */
  predicate SpinDisabled(st: State) {
    st.isSpinning || |st.options| < 2
  }

  /** The guard of `handleSpin` (src/App.tsx:78): a spin goes ahead unless it returns early.
      It lets a spin through exactly when the Spin button is enabled. */
  predicate CanSpin(st: State): (go: bool)
    ensures go <==> !SpinDisabled(st)
  {
    !(|st.options| < 2 || st.isSpinning)
  }

  /** `Math.floor(Math.random() * options.length)` for a random number `random` in [0, 1):
      index `i` is drawn exactly when `random` falls in [i / count, (i + 1) / count). */
  function Draw(random: real, count: nat): (idx: nat)
    requires 0.0 <= random < 1.0 && count > 0
    ensures idx < count
  {
    var i := (random * count as real).Floor;
    Wheel.ScaleStrict(random, 1.0, count as real);
    i
  }

  /** Each index owns an interval of random numbers of width 1 / count, so draws are uniform. */
  lemma DrawIff(random: real, count: nat, i: nat)
    requires 0.0 <= random < 1.0 && count > 0
    ensures Draw(random, count) == i <==> i as real / count as real <= random < (i + 1) as real / count as real
  {
    var c := count as real;
    var x := random * c;
    assert Draw(random, count) == x.Floor;
    FloorIff(x, i);
    ScaledInterval(random, c, i as real);
    ScaledInterval(random, c, (i + 1) as real);
  }

  /** `x.Floor` is `i` exactly when `x` lies in [i, i + 1). */
  lemma FloorIff(x: real, i: int)
    ensures x.Floor == i <==> i as real <= x < (i + 1) as real
  {
  }

  /** Scaling by a positive `c` keeps `random` on the same side of `b / c` as `random * c` is of `b`. */
  lemma ScaledInterval(random: real, c: real, b: real)
    requires c > 0.0
    ensures b / c <= random <==> b <= random * c
    ensures random < b / c <==> random * c < b
  {
    assert b / c * c == b;
    Wheel.ScaleMonotone(b / c, random, c);
    Wheel.ScaleStrict(random, b / c, c);
  }

  /** The target rotation of a spin landing on `idx` (src/App.tsx:86-92): drop the partial
      turn, add eight full turns, then turn so the winner's middle comes under the pointer.
      The wheel always moves forward, by between 7 and 9 turns from a non-negative rest. The
      whole turns of `r` are those `rotation` had (counted toward zero, as `%` does) plus eight,
      and the winner's middle completes `r` to a whole turn; `RotationDetermined` shows that
      these two facts fix `r`. */
  function NextRotation(rotation: real, idx: nat, count: nat): (r: real)
    requires idx < count
    ensures r > rotation
    ensures 0.0 <= rotation ==> rotation + 2520.0 < r < rotation + 3240.0
    ensures (r / 360.0).Floor == Truncate(rotation / 360.0) + 8
    ensures 0.0 <= rotation ==> (r / 360.0).Floor == (rotation / 360.0).Floor + 8
    ensures Wheel.WholeTurns(r + Wheel.LabelAngle(idx, count))
  {
    var segmentAngle := Wheel.SegmentAngle(count);
    var winningSegmentMiddleAngle := (idx as real * segmentAngle) + (segmentAngle / 2.0);
    var baseRotation := 360.0 - winningSegmentMiddleAngle;
    assert winningSegmentMiddleAngle == Wheel.LabelAngle(idx, count);
    Wheel.FullTurnsPlus(rotation, winningSegmentMiddleAngle);
    (rotation - Wheel.TurnRemainder(rotation)) + (8.0 * 360.0) + baseRotation
  }

  /** Any angle with eight more whole turns than `rotation` that the winner's middle completes to
      a whole turn is the target rotation: the contract of `NextRotation` leaves no choice. */
  lemma RotationDetermined(rotation: real, idx: nat, count: nat, r: real)
    requires idx < count
    requires (r / 360.0).Floor == Truncate(rotation / 360.0) + 8
    requires Wheel.WholeTurns(r + Wheel.LabelAngle(idx, count))
    ensures r == NextRotation(rotation, idx, count)
  {
    var a := Wheel.LabelAngle(idx, count);
    var t := Truncate(rotation / 360.0);
    TurnsBelowWhole(r, a, t);
    TurnsBelowWhole(NextRotation(rotation, idx, count), a, t);
  }

  /** An angle that `a` in (0, 360) completes to a whole turn, and whose own whole turns
      number `t + 8`, is `360 (t + 9) - a`. */
  lemma TurnsBelowWhole(r: real, a: real, t: int)
    requires 0.0 < a < 360.0
    requires (r / 360.0).Floor == t + 8 && Wheel.WholeTurns(r + a)
    ensures r == 360.0 * (t + 9) as real - a
  {
    var x := r / 360.0;
    var b := a / 360.0;
    assert 0.0 < b < 1.0;
    assert (r + a) / 360.0 == x + b;
    var m := (x + b).Floor;
    assert x == m as real - b;
    assert x.Floor == m - 1;
    assert r == 360.0 * x;
  }

  /** Once a spin lands, the wheel angle under the pointer is the middle of the winning
      segment (exactly where label `idx` is drawn), so the winner's segment is under it. */
  lemma SpinLandsOnWinner(rotation: real, idx: nat, count: nat)
    requires idx < count
    ensures Wheel.AngleUnderPointer(NextRotation(rotation, idx, count)) == Wheel.LabelAngle(idx, count)
    ensures Wheel.SegmentAt(Wheel.AngleUnderPointer(NextRotation(rotation, idx, count)), count) == idx
    ensures 0.0 <= rotation ==>
      Wheel.TurnRemainder(NextRotation(rotation, idx, count)) == 360.0 - Wheel.LabelAngle(idx, count)
  {
    var r := NextRotation(rotation, idx, count);
    var a := Wheel.LabelAngle(idx, count);
    Wheel.AngleUnderPointerUnique(r, a);
    Wheel.LabelInItsSegment(idx, count);
    if 0.0 <= rotation {
      Wheel.RemainderOfLanding(r, a);
    }
  }

  /** `handleSpin` up to the timeout: when the guard holds, mark the wheel spinning, clear the
      result, turn to the target of the drawn index `idx`, and schedule the reveal of
      `options[idx]` over the list as it is now; otherwise change nothing at all. */
  function SpinStart(st: State, idx: int): (out: Started)
    requires CanSpin(st) ==> 0 <= idx < |st.options|
    ensures out == Started(st, None) <==> !CanSpin(st)
    ensures CanSpin(st) ==>
      && out.state.isSpinning
      && out.state.result == None
      && out.state.rotation == NextRotation(st.rotation, idx, |st.options|)
      && out.state.rotation > st.rotation
      && out.state.(isSpinning := st.isSpinning, result := st.result, rotation := st.rotation) == st
      && out.scheduled == Some(Pending(st.options, idx))
      && Wheel.WholeTurns(out.state.rotation + Wheel.LabelAngle(idx, |st.options|))
  {
    if !CanSpin(st) then
      Started(st, None)
    else
      var rotation := NextRotation(st.rotation, idx, |st.options|);
      Started(st.(isSpinning := true, result := None, rotation := rotation), Some(Pending(st.options, idx)))
  }

  /** The timeout callback (src/App.tsx:97-100): stop spinning and show the option drawn from
      the captured list, whether or not it is still in the live list. */
  function SpinComplete(st: State, pending: Pending): (st': State)
    requires pending.index < |pending.snapshot|
    ensures !st'.isSpinning
    ensures st'.result.Some? && st'.result.value in pending.snapshot
    ensures st'.result.value == pending.snapshot[pending.index]
    ensures st'.(isSpinning := st.isSpinning, result := st.result) == st
  {
    st.(isSpinning := false, result := Some(pending.snapshot[pending.index]))
  }
}

=== FILE: wheel.dfy ===
/** Layout of the wheel: segment colours, segment bounds, where each label sits,
    what each label says, and which segment lies under the pointer at the top. */
module Wheel {
  import opened Js

  /** The segment colours, cycled by position (src/App.tsx:5-8). Colours are CSS text that
      is only compared with other colours and never trimmed or measured, so plain Dafny
      strings serve here rather than `JsString`. */
  const Palette: seq<string> := [
    "#FF6B6B", "#4ECDC4", "#45B7D1", "#FED766", "#2AB7CA",
    "#F0B86E", "#F47A60", "#8A6F9E", "#3D405B", "#E07A5F"
  ]

  /** The colour of the single band drawn when fewer than two options exist. */
  const Blank: string := "#eee"

  /** Labels longer than this many code units are shortened. */
  const LabelLimit: nat := 12

  /** The three dots appended to a shortened label. */
  const Ellipsis: JsString := [0x2E, 0x2E, 0x2E]

  /** No two palette entries are the same colour. */
  lemma PaletteDistinct()
    ensures forall a, b :: 0 <= a < b < |Palette| ==> Palette[a] != Palette[b]
  {
  }

  /** `getColor(index)`: the palette entry of a segment, cycling every ten positions. */
  function GetColor(index: nat): (c: string)
    ensures c in Palette
    ensures c != Blank
  {
    Palette[index % |Palette|]
  }

  /** Two segments share a colour exactly when their positions agree modulo ten. */
  lemma SameColorIff(i: nat, j: nat)
    ensures GetColor(i) == GetColor(j) <==> i % 10 == j % 10
  {
    PaletteDistinct();
    if i % 10 < j % 10 {
      assert Palette[i % 10] != Palette[j % 10];
    } else if j % 10 < i % 10 {
      assert Palette[j % 10] != Palette[i % 10];
    }
  }

  /** Neighbouring segments always differ in colour, except that the last and the first
      segment of a wheel with `count` segments (which touch at the top) share one exactly
      when `count` leaves remainder 1 modulo 10. */
  lemma NeighbourColors(count: nat, i: nat)
    requires count > 1 && i + 1 < count
    ensures GetColor(i) != GetColor(i + 1)
    ensures GetColor(count - 1) == GetColor(0) <==> count % 10 == 1
  {
    SameColorIff(i, i + 1);
    SameColorIff(count - 1, 0);
    NextRemainder(i);
    NextRemainder(count - 1);
  }

  /** Stepping one position forward steps the palette index forward, wrapping after nine. */
  lemma NextRemainder(i: nat)
    ensures (i + 1) % 10 == if i % 10 == 9 then 0 else i % 10 + 1
  {
    assert i == 10 * (i / 10) + i % 10;
    if i % 10 == 9 {
      assert i + 1 == 10 * (i / 10 + 1);
    } else {
      assert i + 1 == 10 * (i / 10) + (i % 10 + 1);
    }
  }

  /** `segmentAngle`: the angular width of one segment. An empty list counts as one segment. */
  function SegmentAngle(count: nat): (a: real)
    ensures a > 0.0
    ensures count > 0 ==> a * count as real == 360.0
    ensures count == 0 ==> a == 360.0
  {
    360.0 / (if count > 0 then count else 1) as real
  }

  /** The angle at which segment `i` starts, measured clockwise from the top: the fraction
      `i / count` of a full turn, from 0 for the first segment to 360 just past the last. */
  function BandStart(i: nat, count: nat): (from: real)
    ensures count > 0 ==> from == 360.0 * i as real / count as real
    ensures count > 0 && i <= count ==> 0.0 <= from <= 360.0
    ensures count > 0 ==> (from == 360.0 <==> i == count)
  {
    var seg := SegmentAngle(count);
    BandFraction(i, count, seg);
    i as real * seg
  }

  /** `i` segments of width `seg = 360 / count` span `360 i / count` degrees, which is at most
      a full turn while `i <= count`, and a full turn exactly at `i == count`. */
  lemma BandFraction(i: nat, count: nat, seg: real)
    requires seg > 0.0 && (count > 0 ==> seg * count as real == 360.0)
    ensures count > 0 ==> i as real * seg == 360.0 * i as real / count as real
    ensures count > 0 && i <= count ==> 0.0 <= i as real * seg <= 360.0
    ensures count > 0 ==> (i as real * seg == 360.0 <==> i == count)
  {
    if count > 0 {
      ScaleMonotone(i as real, count as real, seg);
      ScaleMonotone(count as real, i as real, seg);
    }
  }

  /** One colour stop of the wheel's conic gradient: `color` from angle `from` to angle `to`. */
  datatype Band = Band(color: string, from: real, to: real)

  /** The gradient stop of segment `i`. */
  function SegmentBand(i: nat, count: nat): (b: Band)
    ensures b.to == b.from + SegmentAngle(count)
  {
    NextMultiple(i, SegmentAngle(count));
    Band(GetColor(i), BandStart(i, count), BandStart(i + 1, count))
  }

  /** `wheelBackground`: one band per option when there are at least two, else one grey disc. */
  function Bands(count: nat): (bands: seq<Band>)
    ensures |bands| == if count > 1 then count else 1
    ensures bands[0].from == 0.0 && bands[|bands| - 1].to == 360.0
    ensures forall i :: 0 <= i < |bands| - 1 ==> bands[i].to == bands[i + 1].from
    ensures forall i :: 0 <= i < |bands| ==> bands[i].to - bands[i].from == 360.0 / |bands| as real
    ensures count > 1 ==> forall i :: 0 <= i < count ==> bands[i].color == GetColor(i)
    ensures count <= 1 ==> bands[0].color == Blank
  {
    if count > 1 then
      var seg := SegmentAngle(count);
      var bands := seq(count, i requires 0 <= i < count => SegmentBand(i, count));
      assert bands[count - 1].to == count as real * seg;
      assert seg == 360.0 / count as real;
      bands
    else
      [Band(Blank, 0.0, 360.0)]
  }

  /** The angle of label `i`: the middle of its segment. */
  function LabelAngle(i: nat, count: nat): (a: real)
    requires i < count
    ensures BandStart(i, count) < a < BandStart(i + 1, count)
    ensures a - BandStart(i, count) == BandStart(i + 1, count) - a
    ensures 0.0 < a < 360.0
  {
    var seg := SegmentAngle(count);
    NextMultiple(i, seg);
    assert BandStart(i + 1, count) <= 360.0 by {
      ScaleMonotone((i + 1) as real, count as real, seg);
    }
    i as real * seg + seg / 2.0
  }

  /** The segment that contains `angle` of a wheel with `count` segments. */
  function SegmentAt(angle: real, count: nat): (i: nat)
    requires count > 0 && 0.0 <= angle < 360.0
    ensures i < count
    ensures BandStart(i, count) <= angle < BandStart(i + 1, count)
  {
    var seg := SegmentAngle(count);
    FloorOfScaled(angle, seg, count);
    (angle / seg).Floor
  }

  /** Dividing an angle in [0, 360) by the width of one of `n` equal segments and rounding
      down gives the index of the segment that holds it. */
  lemma FloorOfScaled(angle: real, seg: real, n: nat)
    requires seg > 0.0 && n as real * seg == 360.0 && 0.0 <= angle < 360.0
    ensures 0 <= (angle / seg).Floor < n
    ensures (angle / seg).Floor as real * seg <= angle < ((angle / seg).Floor + 1) as real * seg
  {
    var x := angle / seg;
    var i := x.Floor;
    assert x * seg == angle;
    assert 0.0 <= x by { ScaleMonotone(x, 0.0, seg); }
    ScaleMonotone(i as real, x, seg);
    ScaleStrict(x, (i + 1) as real, seg);
    assert x < n as real by {
      if n as real <= x { ScaleMonotone(n as real, x, seg); }
    }
  }

  /** The segments partition the circle: an angle inside segment `i` is found in segment `i` only. */
  lemma SegmentAtUnique(angle: real, count: nat, i: nat)
    requires count > 0 && 0.0 <= angle < 360.0
    requires BandStart(i, count) <= angle < BandStart(i + 1, count)
    ensures SegmentAt(angle, count) == i
  {
    var k := SegmentAt(angle, count);
    if k < i {
      BandStartMonotone(k + 1, i, count);
    } else if i < k {
      BandStartMonotone(i + 1, k, count);
    }
  }

  /** Later segments start no earlier. */
  lemma BandStartMonotone(i: nat, j: nat, count: nat)
    requires i <= j
    ensures BandStart(i, count) <= BandStart(j, count)
  {
    var seg := SegmentAngle(count);
    assert BandStart(i, count) == i as real * seg;
    assert BandStart(j, count) == j as real * seg;
    assert i as real <= j as real;
    ScaleMonotone(i as real, j as real, seg);
    assert i as real * seg <= j as real * seg;
  }

  /** A label sits inside its own segment. */
  lemma LabelInItsSegment(i: nat, count: nat)
    requires i < count
    ensures SegmentAt(LabelAngle(i, count), count) == i
  {
    SegmentAtUnique(LabelAngle(i, count), count, i);
  }

  /** `x` is a whole number of turns. */
  predicate WholeTurns(x: real) {
    (x / 360.0).Floor as real == x / 360.0
  }

  /** JavaScript's `angle % 360`: the remainder keeps the sign of `angle`. */
  function TurnRemainder(angle: real): (r: real)
    ensures 0.0 <= angle ==> 0.0 <= r < 360.0
    ensures angle <= 0.0 ==> -360.0 < r <= 0.0
    ensures WholeTurns(angle - r)
  {
    var x := angle / 360.0;
    var q := Truncate(x);
    var r := angle - 360.0 * q as real;
    assert r == 360.0 * (x - q as real);
    assert (angle - r) / 360.0 == q as real;
    r
  }

  /** The wheel angle under the pointer at the top once the wheel is turned clockwise by
      `rotation`: the angle `a` in [0, 360) with `rotation + a` a whole number of turns. */
  function AngleUnderPointer(rotation: real): (a: real)
    ensures 0.0 <= a < 360.0
    ensures WholeTurns(rotation + a)
  {
    var x := -rotation / 360.0;
    var q := x.Floor;
    var a := -rotation - 360.0 * q as real;
    assert a == 360.0 * (x - q as real);
    assert (rotation + a) / 360.0 == -q as real;
    a
  }

  /** The pointer angle is determined: any `a` in [0, 360) completing `rotation` to whole turns is it. */
  lemma AngleUnderPointerUnique(rotation: real, a: real)
    requires 0.0 <= a < 360.0 && WholeTurns(rotation + a)
    ensures AngleUnderPointer(rotation) == a
  {
    var b := AngleUnderPointer(rotation);
    var m := ((rotation + a) / 360.0).Floor;
    var n := ((rotation + b) / 360.0).Floor;
    assert a - b == 360.0 * (m - n) as real;
  }

  /** Dropping the partial turn of `rotation`, adding eight turns and then `360 - mid` moves the
      wheel forward, by 7 to 9 turns from a non-negative rest, ends exactly eight whole turns
      past the whole turns `rotation` had, and leaves it so that adding `mid` gives a whole
      number of turns. */
  lemma FullTurnsPlus(rotation: real, mid: real)
    requires 0.0 < mid < 360.0
    ensures var r := (rotation - TurnRemainder(rotation)) + (8.0 * 360.0) + (360.0 - mid);
      && r > rotation
      && (0.0 <= rotation ==> rotation + 2520.0 < r < rotation + 3240.0)
      && (r / 360.0).Floor == Truncate(rotation / 360.0) + 8
      && WholeTurns(r + mid)
  {
    var rem := TurnRemainder(rotation);
    var r := (rotation - rem) + (8.0 * 360.0) + (360.0 - mid);
    var q := Truncate(rotation / 360.0);
    assert rotation - rem == 360.0 * q as real;
    assert r / 360.0 == (q + 8) as real + (360.0 - mid) / 360.0;
    assert (r + mid) / 360.0 == (q + 9) as real;
  }

  /** A non-negative rotation that turns the wheel angle `a` to the top has remainder `360 - a`. */
  lemma RemainderOfLanding(rotation: real, a: real)
    requires 0.0 <= rotation && 0.0 < a < 360.0 && WholeTurns(rotation + a)
    ensures TurnRemainder(rotation) == 360.0 - a
  {
    var rem := TurnRemainder(rotation);
    var m := ((rotation + a) / 360.0).Floor;
    var n := ((rotation - rem) / 360.0).Floor;
    assert (360.0 - a) - rem == 360.0 * (m - n - 1) as real;
  }

  /** The text of a label: the first twelve code units and "..." when the option is longer,
      otherwise the option itself. */
  function Label(option: JsString): (shown: JsString)
    ensures |shown| <= LabelLimit + |Ellipsis|
    ensures |option| <= LabelLimit ==> shown == option
    ensures |option| > LabelLimit ==>
      |shown| == LabelLimit + |Ellipsis| && shown[..LabelLimit] == option[..LabelLimit] && shown[LabelLimit..] == Ellipsis
  {
    if |option| > LabelLimit then option[..LabelLimit] + Ellipsis else option
  }

  /** A label shows its option unchanged exactly when the option is at most twelve units long,
      or is fifteen units long and already ends in "...". */
  lemma LabelShowsOptionIff(option: JsString)
    ensures Label(option) == option <==>
      |option| <= LabelLimit || (|option| == LabelLimit + |Ellipsis| && option[LabelLimit..] == Ellipsis)
  {
    if |option| == LabelLimit + |Ellipsis| && option[LabelLimit..] == Ellipsis {
      assert option == option[..LabelLimit] + option[LabelLimit..];
    }
  }

  /** Multiplying by a positive factor keeps `<=`, in both directions. */
  lemma ScaleMonotone(x: real, y: real, c: real)
    requires c > 0.0
    ensures x <= y <==> x * c <= y * c
  {
  }

  /** Multiplying by a positive factor keeps `<`, in both directions. */
  lemma ScaleStrict(x: real, y: real, c: real)
    requires c > 0.0
    ensures x < y <==> x * c < y * c
  {
  }

  /** One more multiple of `c` is `c` more. */
  lemma NextMultiple(i: nat, c: real)
    ensures (i + 1) as real * c == i as real * c + c
  {
  }
}

=== FILE: wrappers.dfy ===
/** The optional value the spinner uses for "no result yet" and for "no pending reveal". */
module Wrappers {

  /** `None` stands for the source's `null`. */
  datatype Option<+T> = None | Some(value: T)
}
